=== FILE: README.md ===
# HttpUtils: URL guard, status dispatch, body reading and charset sniffing

`HttpUtils` fetches one page over HTTP and returns it as text, or null on
any failure. This model covers the logic in the class that belongs to the
repository itself:

- **`getContent`** refuses a null URL, or one that does not start with the literal `"http"`, before any request is sent.
- **`sendRequest`** passes on the response entity only for status 200.
- **`getContent`** turns a null entity, and every caught exception, into null.
- **`parseStream`** reads the body into a growable `ByteArrayBuffer`. It then picks a charset in this order:
  - the charset of the entity's content type;
  - otherwise the charset named by a `<head> … <meta … charset="…"` tag in the provisionally decoded, lower-cased page;
  - otherwise `UTF-8`.

  A response with no `Content-Type` header gets HttpCore's default content type, `text/plain; charset=ISO-8859-1`. It reaches the model as `Declared("ISO-8859-1")`, so that page is decoded as ISO-8859-1 and never scanned. The meta tag is consulted, and UTF-8 used as the fallback, only when a non-empty `Content-Type` header is present whose charset parameter is missing or blank (`Undeclared`); an empty header value has no elements and also gets the ISO-8859-1 default.

  It decodes the bytes with that charset. When the name is unsupported, it falls back to the provisional text.

The network is turned into inputs. An `Exchange` is either the `IOException` from `execute` or a status code with an optional entity. An entity's body is an `InputStream` value: the byte segments the connection delivers, then end-of-stream or an `IOException`. Decoding bytes to text is a `Platform`, which holds two functions: the platform-default decoding `new String(bytes)`, and `new String(bytes, name)`. The second returns `None` for an unsupported name.

Files:

- `Wrappers.dfy`: `Option`, which stands for Java's null.
- `ByteBuffers.dfy`: bytes, `Flatten` (chunks laid end to end), and HttpCore's `ByteArrayBuffer` as a class over an `array`. `Append` grows the array by doubling.
- `CharsetSniffing.dfy`: ASCII lower-casing and the pattern `<head>([\s\S]*?)<meta([\s\S]*?)charset\s*=(")?(.*?)"` searched with `Matcher.find()`.
  - `IsMatch` describes every way the pattern can match a text.
  - `Preferred` is the order in which the backtracking matcher tries them:
    - earliest start;
    - then the shortest lazy groups;
    - then the longest `\s*`;
    - then the optional quote taken before it is skipped;
    - then the shortest group 4.
  - `FindMatch` performs the search the way the matcher explores it. It is proved to return the `Preferred`-first match, or none when no match exists.
  - `\s` is `[ \t\n\x0B\f\r]`. `.` excludes `\n`, `\r`, U+0085, U+2028 and U+2029.
- `HttpUtils.dfy`: the response types, `Read`, the read loop `ReadBody`, `ResolveCharset`, `ParseStream`, `SendRequest` and `GetContent`, plus the properties below. `ParseOutcome`, `DecodeBody` and `Content` are the functions that the methods `ParseStream` and `GetContent` are proved against.

The model follows the code in three places where one might expect otherwise:

- The provisional decoding that is scanned for a meta tag uses the platform default charset (`new String(bytes)`, line 265), not UTF-8.
- The guard accepts any string that starts with `"http"`, `"httpfoo"` included, not just the HTTP and HTTPS schemes.
- An unsupported charset name does not make the call fail. `parseStream` returns the provisional text (lines 277-281).

A consequence of the backtracking that the model makes explicit (`UnclosedQuoteGivesEmptyName`): for `charset="` with no closing quote on the same line, the optional quote is given back and group 4 is empty. The empty name then fails to decode, and the provisional text is returned.

## Model

| member | source | states |
|---|---|---|
| `HttpUtils.SendRequest` | src/main/java/com/jinshuai/util/http/HttpUtils.java:172-213 | an entity comes back only from a response with status 200, and then it is the response's entity; 400, 401, 403, 404, 502, 503, 504, every other code and an IOException give null |
| `HttpUtils.GetContent` | src/main/java/com/jinshuai/util/http/HttpUtils.java:219-243 | getContent's guard, null propagation and exception handling return exactly `Content(url, exchange, platform)` |
| `HttpUtils.StartsWithHttp` | src/main/java/com/jinshuai/util/http/HttpUtils.java:221 | `startsWith("http")` holds exactly when the first four characters are h, t, t, p |
| `HttpUtils.AcceptsUrl` | src/main/java/com/jinshuai/util/http/HttpUtils.java:221-223 | getContent goes on only for a non-null URL that is "http" followed by the rest of itself |
| `HttpUtils.GuardIsHttpPrefix` | src/main/java/com/jinshuai/util/http/HttpUtils.java:221 | the guard accepts a string exactly when it is "http" followed by anything |
| `HttpUtils.GuardExamples` | src/main/java/com/jinshuai/util/http/HttpUtils.java:221-223 | "httpfoo" and an https URL pass; null, "" and "ftp://example.com" are refused |
| `HttpUtils.RejectedUrlSendsNoRequest` | src/main/java/com/jinshuai/util/http/HttpUtils.java:219-223 | a null or non-"http" URL gives null whatever the network would do, so no request is sent |
| `HttpUtils.FailedRequestGivesNull` | src/main/java/com/jinshuai/util/http/HttpUtils.java:176-211 | an IOException from execute or any status other than 200 makes getContent return null |
| `HttpUtils.NullEntityGivesNull` | src/main/java/com/jinshuai/util/http/HttpUtils.java:230-234 | getContent returns null whenever sendRequest returns null |
| `HttpUtils.Content` | src/main/java/com/jinshuai/util/http/HttpUtils.java:219-243 | getContent returns a page if and only if the URL passes the guard, the status is 200, the entity and its content exist, the stream is read to its end and the content type parses |
| `HttpUtils.Read` | src/main/java/com/jinshuai/util/http/HttpUtils.java:257 | read copies the next bytes, at most the buffer's length and at least one, to the front of the buffer; it returns -1 exactly at the end of the stream and throws only there when the stream fails; the rest of the buffer, and all of it at -1 or on a throw, is left as it was |
| `HttpUtils.ReadBody` | src/main/java/com/jinshuai/util/http/HttpUtils.java:252-259 | after the loop the buffer holds every byte of the stream in order, equal to the concatenation of the chunks read returned (each 1 to 4096 bytes); the loop ends when read returns -1, and the result is null exactly when read throws |
| `HttpUtils.ResolveCharset` | src/main/java/com/jinshuai/util/http/HttpUtils.java:262-276 | a header charset is used as is; otherwise "UTF-8" is chosen if and only if the lower-cased page has no match; a name taken from the page is group 4 of the first match in the matcher's order, lower-case, with no quote and no line terminator |
| `HttpUtils.ParseStream` | src/main/java/com/jinshuai/util/http/HttpUtils.java:249-282 | parseStream's read loop, charset choice and final decoding return exactly `ParseOutcome(stream, contentType, platform)` |
| `HttpUtils.ParseOutcome` | src/main/java/com/jinshuai/util/http/HttpUtils.java:249-282 | parseStream returns null if and only if reading the stream throws, and throws if and only if the stream was read and the content type is rejected |
| `HttpUtils.DecodeBody` | src/main/java/com/jinshuai/util/http/HttpUtils.java:262-281 | after reading: an exception exactly when the content type is rejected; a supported header charset decodes the page; otherwise the result is the provisional text or a decoding of the bytes, never null |
| `HttpUtils.HeaderCharsetWins` | src/main/java/com/jinshuai/util/http/HttpUtils.java:263-268 | with a header charset the page is decoded with it, and the result does not depend on the provisional text, so no meta tag matters |
| `HttpUtils.HeaderCharsetDecidesPage` | src/main/java/com/jinshuai/util/http/HttpUtils.java:219-243 | getContent on an accepted URL, status 200 and a stream read to its end with a supported header charset returns exactly those bytes decoded with that charset |
| `HttpUtils.MetaTagCharsetUsed` | src/main/java/com/jinshuai/util/http/HttpUtils.java:269-277 | without a header charset, the name the meta tag gives is the one the page is decoded with |
| `HttpUtils.Utf8WhenNothingDeclared` | src/main/java/com/jinshuai/util/http/HttpUtils.java:262-277 | with neither a header charset nor a meta tag, the page is decoded as UTF-8 |
| `HttpUtils.UnsupportedCharsetKeepsProvisional` | src/main/java/com/jinshuai/util/http/HttpUtils.java:265-281 | when the resolved name cannot decode, parseStream returns the provisional default-charset text, not null |
| `HttpUtils.MetaTagExample` | src/main/java/com/jinshuai/util/http/HttpUtils.java:269-277 | a page holding `<HEAD><META CHARSET="GB2312">` and no header charset is decoded with "gb2312" |
| `ByteBuffers.FlattenSnoc` | src/main/java/com/jinshuai/util/http/HttpUtils.java:258 | appending a chunk at the end appends its bytes at the end of the concatenation |
| `ByteBuffers.ByteArrayBuffer.constructor` | src/main/java/com/jinshuai/util/http/HttpUtils.java:252 | a new buffer of capacity 4096 is empty |
| `ByteBuffers.ByteArrayBuffer.Expand` | src/main/java/com/jinshuai/util/http/HttpUtils.java:258 | growing keeps the contents and gives at least twice the capacity and at least the length needed |
| `ByteBuffers.ByteArrayBuffer.Append` | src/main/java/com/jinshuai/util/http/HttpUtils.java:258 | append(tempStore, 0, count) adds exactly those bytes after the old contents |
| `ByteBuffers.ByteArrayBuffer.ToByteArray` | src/main/java/com/jinshuai/util/http/HttpUtils.java:265 | toByteArray gives a fresh array with exactly the contents |
| `CharsetSniffing.Lower` | src/main/java/com/jinshuai/util/http/HttpUtils.java:272 | lower-casing keeps the length, maps each character by ASCII lower-casing and leaves no upper-case ASCII letter |
| `CharsetSniffing.SpaceRunEnd` | src/main/java/com/jinshuai/util/http/HttpUtils.java:271 | `\s*` ends at the first non-space character after `charset` |
| `CharsetSniffing.ClosingQuote` | src/main/java/com/jinshuai/util/http/HttpUtils.java:271 | `(.*?)"` closes at the first quote reachable without crossing a line terminator, and fails only when there is none |
| `CharsetSniffing.AfterCharset` | src/main/java/com/jinshuai/util/http/HttpUtils.java:271 | with `<head>`, `<meta` and `charset` fixed, the result is the preferred match among those that use them, or there is none |
| `CharsetSniffing.CharsetFrom` | src/main/java/com/jinshuai/util/http/HttpUtils.java:271 | the lazy group 2 finds the preferred match whose `charset` is at or after a position, or there is none |
| `CharsetSniffing.MetaFrom` | src/main/java/com/jinshuai/util/http/HttpUtils.java:271 | the lazy group 1 finds the preferred match whose `<meta` is at or after a position, or there is none |
| `CharsetSniffing.MatchAt` | src/main/java/com/jinshuai/util/http/HttpUtils.java:271-273 | an attempt anchored at a position finds the preferred match starting there, or there is none |
| `CharsetSniffing.FindFrom` | src/main/java/com/jinshuai/util/http/HttpUtils.java:272-273 | find() tries start positions in turn and reports the preferred match starting at or after a position |
| `CharsetSniffing.FindMatch` | src/main/java/com/jinshuai/util/http/HttpUtils.java:271-273 | find() reports a match that comes before every other match in the matcher's backtracking order, and fails only when the text has no match |
| `CharsetSniffing.MetaCharset` | src/main/java/com/jinshuai/util/http/HttpUtils.java:271-274 | group 4 of the match that comes before every other match in the lower-cased page; there is one exactly when a match exists, and it is lower-case with no quote and no line terminator |
| `CharsetSniffing.GroupFourIsUnquotedLine` | src/main/java/com/jinshuai/util/http/HttpUtils.java:271-274 | in the reported match, group 4 has no quote and no line terminator |
| `CharsetSniffing.FoundMatchIsEarliest` | src/main/java/com/jinshuai/util/http/HttpUtils.java:271-273 | the reported match starts at the first `<head>` in the text and uses the first `<meta` after it |
| `CharsetSniffing.UnclosedQuoteGivesEmptyName` | src/main/java/com/jinshuai/util/http/HttpUtils.java:271-274 | when the optional quote had to be skipped although a quote follows `=`, group 4 is empty |
| `CharsetSniffing.QuotedMetaTagMatch` | src/main/java/com/jinshuai/util/http/HttpUtils.java:271-273 | in `<head><meta charset="gb2312">` the match spans `<head>` at 0, `<meta` at 6, `charset` at 12 and group 4 from 21 to 27 |
| `CharsetSniffing.UpperCaseMetaTag` | src/main/java/com/jinshuai/util/http/HttpUtils.java:271-274 | `<HEAD><META CHARSET="GB2312">` yields the name "gb2312" once lower-cased |

## Left out

- `configHttpPool` and `configHttpClient` (lines 91-142) are left out: pool limits, timeouts and TLS trust of self-signed certificates are library configuration. The trust-all TLS setting is a deliberate relaxation of certificate checking.
- `getSingleInstance` (lines 67-76) is left out: its double-checked locking is about concurrency.
- Setting the `jsse.enableSNIExtension` property to false for https URLs (line 226) is left out. It is a process-wide side effect that stays set for every later call, and it changes what the network does for https URLs: it avoids the handshake alert, so it decides whether such a fetch can succeed. The model takes that outcome as the `Exchange` input.
- `getHttpGet` (lines 148-166) is left out: URL parsing, request headers and the random User-Agent are library calls. `UserAgentArray` is not part of this model. The request is the `Exchange` input. A URL that passes the guard but that `java.net.URL` or `URI` refuses, such as `"httpfoo"`, gets a request with no URI (lines 152-157); `execute` then throws an unchecked exception that escapes `sendRequest`'s `IOException` catch, and `getContent`'s `catch (Exception e)` (line 239) turns it into null. The model folds this into `ExecuteFailed`, the only exchange such a URL can meet; it does not derive it from the URL, so `Content` with such a URL and a `Response` exchange describes a run that cannot happen. The same holds for every URL when `configHttpPool` failed and left `httpClient` null.
- Logging and the `main` demo loop are left out.
- Byte-to-text decoding, the platform default charset and charset-name lookup are parameters (`Platform`).
- `ContentType.getOrDefault` is an input, `ContentTypeCharset`. Its header parsing belongs to the library.
- `CharsetSniffing.Lower`: models `String.toLowerCase` as ASCII lower-casing. Unicode case mapping, which can change the length of the text, is left out, and so are locale rules such as the Turkish dotless i.
- `HttpUtils.Read`: an `IOException` is modelled only after the last segment. A failure in the middle ends the same way, with parseStream returning null. Every delivered segment is non-empty, following `InputStream.read`, which blocks until at least one byte is available.
- `ByteBuffers.ByteArrayBuffer.Append`: requires the offset and length to lie inside the source array, where HttpCore throws `IndexOutOfBoundsException`. parseStream passes `0` and a count that `read` returned, which always fit. Integer overflow of the capacity is not modelled.
- Closing the stream and releasing the connection are left out: the source does neither.

=== FILE: ByteBuffers.dfy ===
/**
 * Bytes, chunks of bytes, and Apache HttpCore's ByteArrayBuffer: the growable
 * buffer parseStream fills from the response stream.
 */
module ByteBuffers {

  newtype byte = b: int | 0 <= b < 256

  /** The chunks laid end to end, in order. */
  function Flatten(chunks: seq<seq<byte>>): seq<byte> {
    if chunks == [] then [] else chunks[0] + Flatten(chunks[1..])
  }

  /** Appending a chunk at the end appends its bytes at the end. */
  lemma {:induction false} FlattenSnoc(chunks: seq<seq<byte>>, c: seq<byte>)
    ensures Flatten(chunks + [c]) == Flatten(chunks) + c
  {
    if chunks == [] {
      assert chunks + [c] == [c];
    } else {
      assert (chunks + [c])[1..] == chunks[1..] + [c];
      FlattenSnoc(chunks[1..], c);
    }
  }

  /**
   * A byte array that grows on demand: the first len bytes of buffer are the
   * contents.
   */
  class ByteArrayBuffer {
    var buffer: array<byte>
    var len: nat

    ghost predicate Valid()
      reads this
    {
      len <= buffer.Length
    }

    ghost function Contents(): seq<byte>
      reads this, buffer
      requires Valid()
    {
      buffer[..len]
    }

    constructor (capacity: nat)
      ensures Valid() && fresh(buffer)
      ensures Contents() == [] && buffer.Length == capacity
    {
      buffer := new byte[capacity];
      len := 0;
    }

    /**
     * Replaces the backing array by one of at least twice the size, and at
     * least newlen, holding the same contents.
     */
    method Expand(newlen: nat)
      requires Valid()
      modifies this
      ensures Valid() && fresh(buffer) && len == old(len)
      ensures Contents() == old(Contents())
      ensures buffer.Length >= 2 * old(buffer.Length) && buffer.Length >= newlen
    {
      var newbuffer := new byte[if 2 * buffer.Length > newlen then 2 * buffer.Length else newlen];
      forall i | 0 <= i < len {
        newbuffer[i] := buffer[i];
      }
      buffer := newbuffer;
    }

    /** Copies b[off..off + n] after the contents, expanding when they do not fit. */
    method Append(b: array<byte>, off: nat, n: nat)
      requires Valid() && b != buffer && off + n <= b.Length
      modifies this, buffer
      ensures Valid() && (buffer == old(buffer) || fresh(buffer))
      ensures Contents() == old(Contents()) + b[off..off + n]
    {
      if n == 0 {
        return;
      }
      var newlen := len + n;
      if newlen > buffer.Length {
        Expand(newlen);
      }
      forall i | 0 <= i < n {
        buffer[len + i] := b[off + i];
      }
      len := newlen;
    }

    /** A fresh array holding exactly the contents. */
    method ToByteArray() returns (a: array<byte>)
      requires Valid()
      ensures fresh(a) && a[..] == Contents()
    {
      a := new byte[len];
      forall i | 0 <= i < len {
        a[i] := buffer[i];
      }
    }
  }
}

=== FILE: CharsetSniffing.dfy ===
/**
 * The HTML meta-charset sniffing of HttpUtils.parseStream: the page text is
 * lower-cased and searched with java.util.regex's find() for
 *
 *     <head>([\s\S]*?)<meta([\s\S]*?)charset\s*=(")?(.*?)"
 *
 * whose group 4 names the charset. IsMatch describes every way the pattern can
 * match a text; Preferred is the order in which Java's backtracking matcher
 * tries them (leftmost start, lazy groups shortest first, greedy parts longest
 * first); FindMatch is the search itself and is proved to return the first
 * match in that order.
 */
module CharsetSniffing {
  import opened Wrappers

  // ---------------------------------------------------------------------------
  // Characters

  predicate IsUpperAscii(ch: char) { 'A' <= ch <= 'Z' }

  /** ASCII lower-casing, the model of String.toLowerCase. */
  function LowerChar(ch: char): char {
    if IsUpperAscii(ch) then (ch as int + 32) as char else ch
  }

  predicate IsLowerAscii(s: string) {
    forall i :: 0 <= i < |s| ==> !IsUpperAscii(s[i])
  }

  function Lower(s: string): (r: string)
    ensures |r| == |s| && IsLowerAscii(r)
    ensures forall i :: 0 <= i < |s| ==> r[i] == LowerChar(s[i])
  {
    seq(|s|, i requires 0 <= i < |s| => LowerChar(s[i]))
  }

  /** `\s` without UNICODE_CHARACTER_CLASS: [ \t\n\x0B\f\r]. */
  predicate IsSpace(ch: char) {
    ch == ' ' || ch == '\t' || ch == '\n' || ch == '\U{B}' || ch == '\U{C}' || ch == '\r'
  }

  /** The characters `.` refuses without DOTALL. */
  predicate IsLineTerminator(ch: char) {
    ch == '\n' || ch == '\r' || ch == '\U{85}' || ch == '\U{2028}' || ch == '\U{2029}'
  }

  // ---------------------------------------------------------------------------
  // What a match is

  /** w occurs in t at position i. */
  predicate StartsAt(t: string, i: nat, w: string) {
    i + |w| <= |t| && t[i..i + |w|] == w
  }

  predicate SpacesBetween(t: string, a: nat, b: nat) {
    b <= |t| && forall k | a <= k < b :: IsSpace(t[k])
  }

  /** `(.*?)"` can run from q to a closing quote at e. */
  predicate QuoteCloses(t: string, q: nat, e: nat) {
    q <= e < |t| && t[e] == '"' && forall k | q <= k < e :: !IsLineTerminator(t[k])
  }

  /**
   * The positions a match fixes: `<head>` at head, `<meta` at meta, `charset`
   * at charset, `=` at eq, group 4 spanning open..close, closing quote at close.
   */
  datatype Match = Match(head: nat, meta: nat, charset: nat, eq: nat, open: nat, close: nat)

  predicate IsMatch(t: string, m: Match) {
    && StartsAt(t, m.head, "<head>")
    && m.head + 6 <= m.meta && StartsAt(t, m.meta, "<meta")
    && m.meta + 5 <= m.charset && StartsAt(t, m.charset, "charset")
    && m.charset + 7 <= m.eq < |t| && SpacesBetween(t, m.charset + 7, m.eq) && t[m.eq] == '='
    && (m.open == m.eq + 1 || (m.open == m.eq + 2 && m.eq + 1 < |t| && t[m.eq + 1] == '"'))
    && QuoteCloses(t, m.open, m.close)
  }

  /**
   * a is tried no later than b by the backtracking matcher: earlier start,
   * then shorter group 1, shorter group 2, longer `\s*`, the optional quote
   * taken before it is skipped, and shorter group 4.
   */
  predicate Preferred(a: Match, b: Match) {
    if a.head != b.head then a.head < b.head
    else if a.meta != b.meta then a.meta < b.meta
    else if a.charset != b.charset then a.charset < b.charset
    else if a.eq != b.eq then a.eq > b.eq
    else if a.open != b.open then a.open > b.open
    else a.close <= b.close
  }

  // ---------------------------------------------------------------------------
  // The search, in the order the matcher explores it

  /** `\s*`, greedy: it only gives characters back to `=`, which is not a space. */
  function SpaceRunEnd(t: string, k: nat): (j: nat)
    requires k <= |t|
    decreases |t| - k
    ensures k <= j <= |t| && SpacesBetween(t, k, j) && (j < |t| ==> !IsSpace(t[j]))
  {
    if k < |t| && IsSpace(t[k]) then SpaceRunEnd(t, k + 1) else k
  }

  /** `(.*?)"` from q: extend group 4 one character at a time until a quote. */
  function ClosingQuote(t: string, q: nat): (e: Option<nat>)
    decreases |t| - q
    ensures e.Some? ==> QuoteCloses(t, q, e.value)
    ensures e.Some? ==> forall e' :: QuoteCloses(t, q, e') ==> e.value <= e'
    ensures e.None? ==> forall e' :: !QuoteCloses(t, q, e')
  {
    if q >= |t| then None
    else if t[q] == '"' then Some(q)
    else if IsLineTerminator(t[q]) then None
    else
      assert forall e' :: QuoteCloses(t, q, e') ==> QuoteCloses(t, q + 1, e');
      ClosingQuote(t, q + 1)
  }

  /** `\s*=(")?(.*?)"` after the `charset` at c, the earlier groups being fixed. */
  function AfterCharset(t: string, h: nat, p: nat, c: nat): (r: Option<Match>)
    requires StartsAt(t, h, "<head>") && h + 6 <= p && StartsAt(t, p, "<meta")
    requires p + 5 <= c && StartsAt(t, c, "charset")
    ensures r.Some? ==> IsMatch(t, r.value) && r.value.head == h && r.value.meta == p && r.value.charset == c
    ensures r.Some? ==> forall m :: IsMatch(t, m) && m.head == h && m.meta == p && m.charset == c ==> Preferred(r.value, m)
    ensures r.None? ==> forall m :: IsMatch(t, m) && m.head == h && m.meta == p ==> m.charset != c
  {
    var j := SpaceRunEnd(t, c + 7);
    if j < |t| && t[j] == '=' then
      var quoted := if j + 1 < |t| && t[j + 1] == '"' then ClosingQuote(t, j + 2) else None;
      if quoted.Some? then Some(Match(h, p, c, j, j + 2, quoted.value))
      else
        match ClosingQuote(t, j + 1)
        case Some(e) => Some(Match(h, p, c, j, j + 1, e))
        case None => None
    else None
  }

  /** Group 2, lazy: try a `charset` at c, c + 1, ... */
  function CharsetFrom(t: string, h: nat, p: nat, c: nat): (r: Option<Match>)
    requires StartsAt(t, h, "<head>") && h + 6 <= p && StartsAt(t, p, "<meta") && p + 5 <= c
    decreases |t| - c
    ensures r.Some? ==> IsMatch(t, r.value) && r.value.head == h && r.value.meta == p && c <= r.value.charset
    ensures r.Some? ==> forall m :: IsMatch(t, m) && m.head == h && m.meta == p && c <= m.charset ==> Preferred(r.value, m)
    ensures r.None? ==> forall m :: IsMatch(t, m) && m.head == h && m.meta == p ==> m.charset < c
  {
    if c + 7 > |t| then None
    else
      var here := if StartsAt(t, c, "charset") then AfterCharset(t, h, p, c) else None;
      if here.Some? then here else CharsetFrom(t, h, p, c + 1)
  }

  /** Group 1, lazy: try a `<meta` at p, p + 1, ... */
  function MetaFrom(t: string, h: nat, p: nat): (r: Option<Match>)
    requires StartsAt(t, h, "<head>") && h + 6 <= p
    decreases |t| - p
    ensures r.Some? ==> IsMatch(t, r.value) && r.value.head == h && p <= r.value.meta
    ensures r.Some? ==> forall m :: IsMatch(t, m) && m.head == h && p <= m.meta ==> Preferred(r.value, m)
    ensures r.None? ==> forall m :: IsMatch(t, m) && m.head == h ==> m.meta < p
  {
    if p + 5 > |t| then None
    else
      var here := if StartsAt(t, p, "<meta") then CharsetFrom(t, h, p, p + 5) else None;
      if here.Some? then here else MetaFrom(t, h, p + 1)
  }

  /** An attempt anchored at h: the literal `<head>`, then the rest. */
  function MatchAt(t: string, h: nat): (r: Option<Match>)
    ensures r.Some? ==> IsMatch(t, r.value) && r.value.head == h
    ensures r.Some? ==> forall m :: IsMatch(t, m) && m.head == h ==> Preferred(r.value, m)
    ensures r.None? ==> forall m :: IsMatch(t, m) ==> m.head != h
  {
    if StartsAt(t, h, "<head>") then MetaFrom(t, h, h + 6) else None
  }

  /** Matcher.find(): try each start position from i on. */
  function FindFrom(t: string, i: nat): (r: Option<Match>)
    decreases |t| - i
    ensures r.Some? ==> IsMatch(t, r.value) && i <= r.value.head
    ensures r.Some? ==> forall m :: IsMatch(t, m) && i <= m.head ==> Preferred(r.value, m)
    ensures r.None? ==> forall m :: IsMatch(t, m) ==> m.head < i
  {
    if i + 6 > |t| then None
    else
      var here := MatchAt(t, i);
      if here.Some? then here else FindFrom(t, i + 1)
  }

  /** The first match Java's find() reports, if any. */
  function FindMatch(t: string): (r: Option<Match>)
    ensures r.Some? ==> IsMatch(t, r.value) && forall m :: IsMatch(t, m) ==> Preferred(r.value, m)
    ensures r.None? ==> forall m :: !IsMatch(t, m)
  {
    FindFrom(t, 0)
  }

  // ---------------------------------------------------------------------------
  // The charset the page declares

  /**
   * Group 4 of the first match in the lower-cased text, the name parseStream
   * takes from a meta tag.
   */
  function MetaCharset(text: string): (name: Option<string>)
    ensures name.None? <==> forall m :: !IsMatch(Lower(text), m)
    ensures name.Some? ==>
      exists m :: && IsMatch(Lower(text), m)
                  && (forall m' :: IsMatch(Lower(text), m') ==> Preferred(m, m'))
                  && name.value == Lower(text)[m.open..m.close]
    ensures name.Some? ==> IsLowerAscii(name.value)
    ensures name.Some? ==> forall i :: 0 <= i < |name.value| ==> name.value[i] != '"' && !IsLineTerminator(name.value[i])
  {
    var t := Lower(text);
    match FindMatch(t)
    case Some(m) =>
      GroupFourIsUnquotedLine(t, m);
      var name := t[m.open..m.close];
      assert forall i :: 0 <= i < |name| ==> name[i] == t[m.open + i];
      Some(name)
    case None => None
  }

  /**
   * In the preferred match, group 4 stops at the first quote it meets, so it
   * holds no quote and no line terminator.
   */
  lemma {:induction false} GroupFourIsUnquotedLine(t: string, m: Match)
    requires IsMatch(t, m) && forall m' :: IsMatch(t, m') ==> Preferred(m, m')
    ensures forall k | m.open <= k < m.close :: t[k] != '"' && !IsLineTerminator(t[k])
  {
    forall k | m.open <= k < m.close ensures t[k] != '"' {
      if t[k] == '"' {
        assert IsMatch(t, m.(close := k));
      }
    }
  }

  /**
   * The reported match starts at the first `<head>` of the text and uses the
   * first `<meta` after it: a later `<head>` or `<meta` only offers matches
   * that an earlier one offers too.
   */
  lemma {:induction false} FoundMatchIsEarliest(t: string)
    requires FindMatch(t).Some?
    ensures forall i: nat :: i < FindMatch(t).value.head ==> !StartsAt(t, i, "<head>")
    ensures forall q: nat :: FindMatch(t).value.head + 6 <= q < FindMatch(t).value.meta ==> !StartsAt(t, q, "<meta")
  {
    var m := FindMatch(t).value;
    forall i: nat | i < m.head ensures !StartsAt(t, i, "<head>") {
      if StartsAt(t, i, "<head>") {
        assert IsMatch(t, m.(head := i));
      }
    }
    forall q: nat | m.head + 6 <= q < m.meta ensures !StartsAt(t, q, "<meta") {
      if StartsAt(t, q, "<meta") {
        assert IsMatch(t, m.(meta := q));
      }
    }
  }

  /**
   * When a quote follows `=` but no second quote closes it on the same line,
   * the matcher gives the optional quote back and group 4 ends at that very
   * quote: the name is empty.
   */
  lemma {:induction false} UnclosedQuoteGivesEmptyName(t: string)
    requires FindMatch(t).Some?
    requires FindMatch(t).value.open == FindMatch(t).value.eq + 1
    requires t[FindMatch(t).value.open] == '"'
    ensures FindMatch(t).value.close == FindMatch(t).value.open
  {
    var m := FindMatch(t).value;
    assert IsMatch(t, m.(close := m.open));
  }

  /** The HTML5 form of the tag, with its charset in quotes. */
  lemma QuotedMetaTagMatch()
    ensures FindMatch("<head><meta charset=\"gb2312\">") == Some(Match(0, 6, 12, 19, 21, 27))
  {
    var t := "<head><meta charset=\"gb2312\">";
    var found := Match(0, 6, 12, 19, 21, 27);
    assert StartsAt(t, 0, "<head>") by { assert t[0..6] == "<head>"; }
    assert StartsAt(t, 6, "<meta") by {
      assert t[6] == '<' && t[7] == 'm' && t[8] == 'e' && t[9] == 't' && t[10] == 'a';
    }
    assert StartsAt(t, 12, "charset") by { assert t[12..19] == "charset"; }
    assert !StartsAt(t, 11, "charset") by { assert t[11..18][0] == ' '; }
    assert ClosingQuote(t, 27) == Some(27);
    assert ClosingQuote(t, 26) == Some(27);
    assert ClosingQuote(t, 25) == Some(27);
    assert ClosingQuote(t, 24) == Some(27);
    assert ClosingQuote(t, 23) == Some(27);
    assert ClosingQuote(t, 22) == Some(27);
    assert ClosingQuote(t, 21) == Some(27);
    assert SpaceRunEnd(t, 19) == 19;
    assert AfterCharset(t, 0, 6, 12) == Some(found);
    assert CharsetFrom(t, 0, 6, 11) == Some(found);
    assert MetaFrom(t, 0, 6) == Some(found);
    assert MatchAt(t, 0) == Some(found);
  }

  /** A tag written in capitals is found once the text is lower-cased. */
  lemma UpperCaseMetaTag()
    ensures MetaCharset("<HEAD><META CHARSET=\"GB2312\">") == Some("gb2312")
  {
    var t := "<head><meta charset=\"gb2312\">";
    LowerCasesTag();
    QuotedMetaTagMatch();
    assert t[21..27] == "gb2312" by {
      assert t[21] == 'g' && t[22] == 'b' && t[23] == '2' && t[24] == '3' && t[25] == '1' && t[26] == '2';
    }
  }

  lemma LowerCasesTag()
    ensures Lower("<HEAD><META CHARSET=\"GB2312\">") == "<head><meta charset=\"gb2312\">"
  {
  }
}

=== FILE: HttpUtils.dfy ===
/**
 * The decision core of HttpUtils: the URL guard and null propagation of
 * getContent, the status switch of sendRequest, and parseStream's read loop
 * and charset resolution. The network is an input (an Exchange), the response
 * body a stream of byte segments, and decoding bytes to text a Platform.
 * Java's null is None.
 */
module HttpUtils {
  import opened Wrappers
  import opened ByteBuffers
  import opened CharsetSniffing

  /** Initial capacity of the ByteArrayBuffer and size of the read buffer. */
  const BufferSize := 4096

  /** The charset parseStream starts from and falls back to. */
  const DefaultCharset := "UTF-8"

  /** How a Java call ends: with a value, or with an unchecked exception. */
  datatype Completion<T> = Normal(value: T) | Thrown

  // ---------------------------------------------------------------------------
  // The response

  /** A piece of the body; InputStream.read blocks until at least one byte is there. */
  type Segment = s: seq<byte> | |s| > 0 witness [0]

  /**
   * The body stream: the segments the connection delivers, in order; after
   * them read returns -1, or throws an IOException when fails is set.
   */
  datatype InputStream = InputStream(pending: seq<Segment>, fails: bool)

  /**
   * What ContentType.getOrDefault(entity).getCharset() comes to. An entity
   * without a Content-Type header gets HttpCore's default text/plain content
   * type, whose charset is ISO-8859-1: it arrives here as
   * Declared("ISO-8859-1"). So does a header with an empty value, which has
   * no elements to parse.
   */
  datatype ContentTypeCharset =
    | Declared(name: string)  // a charset the JVM knows, by its canonical name
    | Undeclared              // a Content-Type header with no non-blank charset parameter: getCharset() is null
    | Rejected                // the header cannot be made into a ContentType: an unchecked exception

  /** An HttpEntity: its content (None when getContent() throws an IOException) and its content type. */
  datatype Entity = Entity(content: Option<InputStream>, contentType: ContentTypeCharset)

  /**
   * What httpClient.execute does: throw an exception, or return a status code
   * and an entity, possibly null. An IOException is caught in sendRequest; an
   * unchecked one (as for a request getHttpGet built with no URI) escapes it
   * and getContent's own catch turns it into null. Both are ExecuteFailed.
   */
  datatype Exchange = ExecuteFailed | Response(status: int, entity: Option<Entity>)

  /**
   * Decoding, outside the model: new String(bytes) in the platform's default
   * charset, and new String(bytes, name), None standing for the
   * UnsupportedEncodingException thrown for a name the JVM does not know.
   */
  datatype Platform = Platform(defaultDecode: seq<byte> -> string, decode: (seq<byte>, string) -> Option<string>)

  // ---------------------------------------------------------------------------
  // getContent's guard and sendRequest's status switch

  /** String.startsWith("http"). */
  predicate StartsWithHttp(url: string)
    ensures StartsWithHttp(url) <==> |url| >= 4 && url[0] == 'h' && url[1] == 't' && url[2] == 't' && url[3] == 'p'
  {
    |url| >= 4 && url[..4] == "http"
  }

  /** getContent goes on to the network only for a non-null URL starting with "http". */
  predicate AcceptsUrl(url: Option<string>)
    ensures AcceptsUrl(url) <==> url.Some? && |url.value| >= 4 && url.value == "http" + url.value[4..]
  {
    url.Some? && StartsWithHttp(url.value)
  }

  /** sendRequest after execute: only status 200 hands on the entity; every other code, and an IOException, is logged and gives null. */
  function SendRequest(exchange: Exchange): (entity: Option<Entity>)
    ensures entity.Some? ==> exchange.Response? && exchange.status == 200
    ensures exchange.Response? && exchange.status == 200 ==> entity == exchange.entity
  {
    match exchange
    case ExecuteFailed => None
    case Response(status, responseEntity) =>
      match status
      case 200 => responseEntity
      case 400 => None
      case 401 => None
      case 403 => None
      case 404 => None
      case 502 => None
      case 503 => None
      case 504 => None
      case _ => None
  }

  // ---------------------------------------------------------------------------
  // parseStream: the read loop

  /**
   * InputStream.read(b): copies the next bytes, at most b.Length of them, to
   * the front of b and returns their number; -1 at the end of the stream.
   * The rest of b, and all of it at the end or on an exception, is untouched.
   */
  method Read(s: InputStream, b: array<byte>) returns (count: int, rest: InputStream, thrown: bool)
    modifies b
    ensures thrown <==> b.Length > 0 && s.pending == [] && s.fails
    ensures !thrown ==> (count == -1 <==> b.Length > 0 && s.pending == [])
    ensures !thrown && count != -1 ==> 0 <= count <= b.Length && rest.fails == s.fails
    ensures !thrown && count != -1 ==> Flatten(s.pending) == b[..count] + Flatten(rest.pending)
    ensures !thrown && b.Length > 0 && s.pending != [] ==> count > 0
    ensures !thrown && count != -1 ==> b[count..] == old(b[count..])
    ensures thrown || count == -1 ==> b[..] == old(b[..])
  {
    if b.Length == 0 {
      return 0, s, false;
    }
    if s.pending == [] {
      return -1, s, s.fails;
    }
    var head := s.pending[0];
    var n := if |head| <= b.Length then |head| else b.Length;
    forall i | 0 <= i < n {
      b[i] := head[i];
    }
    assert b[..n] == head[..n];
    if n == |head| {
      rest := InputStream(s.pending[1..], s.fails);
    } else {
      rest := InputStream([head[n..]] + s.pending[1..], s.fails);
      assert Flatten(rest.pending) == head[n..] + Flatten(s.pending[1..]);
      assert head == head[..n] + head[n..];
    }
    count, thrown := n, false;
  }

  /**
   * Lines 252-259: read into tempStore and append to the buffer until read
   * returns -1. The body is every byte of the stream, in order, and the
   * concatenation of the chunks read returned; None when read throws.
   */
  method ReadBody(stream: InputStream) returns (body: Option<seq<byte>>, ghost chunks: seq<seq<byte>>)
    ensures body.None? <==> stream.fails
    ensures body.Some? ==> body.value == Flatten(stream.pending)
    ensures body.Some? ==> body.value == Flatten(chunks)
    ensures forall i :: 0 <= i < |chunks| ==> 0 < |chunks[i]| <= BufferSize
  {
    var byteArrayBuffer := new ByteArrayBuffer(BufferSize);
    var tempStore := new byte[BufferSize];
    var s := stream;
    chunks := [];
    while true
      invariant byteArrayBuffer.Valid() && fresh(byteArrayBuffer.buffer)
      invariant byteArrayBuffer.buffer != tempStore && tempStore.Length == BufferSize
      invariant byteArrayBuffer.Contents() == Flatten(chunks)
      invariant Flatten(stream.pending) == Flatten(chunks) + Flatten(s.pending)
      invariant s.fails == stream.fails
      invariant forall i :: 0 <= i < |chunks| ==> 0 < |chunks[i]| <= BufferSize
      decreases |Flatten(s.pending)|
    {
      var count, next, thrown := Read(s, tempStore);
      if thrown {
        return None, chunks;
      }
      if count == -1 {
        break;
      }
      var chunk := tempStore[..count];
      assert Flatten(stream.pending) == (Flatten(chunks) + chunk) + Flatten(next.pending);
      byteArrayBuffer.Append(tempStore, 0, count);
      assert tempStore[0..count] == chunk;
      FlattenSnoc(chunks, chunk);
      chunks := chunks + [chunk];
      s := next;
    }
    var bytes := byteArrayBuffer.ToByteArray();
    body := Some(bytes[..]);
  }

  // ---------------------------------------------------------------------------
  // parseStream: the charset

  /**
   * Lines 262-276: the content type's charset; without one, the charset a
   * meta tag names in the provisionally decoded page; without that, UTF-8.
   */
  function ResolveCharset(declared: Option<string>, provisional: string): (charset: string)
    ensures declared.Some? ==> charset == declared.value
    ensures declared.None? ==> (charset == DefaultCharset <==> forall m :: !IsMatch(Lower(provisional), m))
    ensures declared.None? && charset != DefaultCharset ==>
      && IsLowerAscii(charset)
      && (forall i :: 0 <= i < |charset| ==> charset[i] != '"' && !IsLineTerminator(charset[i]))
      && exists m :: && IsMatch(Lower(provisional), m)
                    && (forall m' :: IsMatch(Lower(provisional), m') ==> Preferred(m, m'))
                    && charset == Lower(provisional)[m.open..m.close]
  {
    if declared.Some? then declared.value
    else
      match MetaCharset(provisional)
      case Some(name) =>
        assert IsUpperAscii(DefaultCharset[0]);
        name
      case None => DefaultCharset
  }

  /**
   * Lines 262-281 once the body is read: the page decoded with the resolved
   * charset, or the provisional decoding when that charset is unsupported.
   */
  function DecodeBody(bytes: seq<byte>, contentType: ContentTypeCharset, platform: Platform): (r: Completion<string>)
    ensures r.Thrown? <==> contentType.Rejected?
    ensures contentType.Declared? && platform.decode(bytes, contentType.name).Some? ==>
      r == Normal(platform.decode(bytes, contentType.name).value)
    ensures r.Normal? ==>
      r.value == platform.defaultDecode(bytes) || exists name :: platform.decode(bytes, name) == Some(r.value)
  {
    if contentType.Rejected? then Thrown
    else
      var provisional := platform.defaultDecode(bytes);
      var declared := if contentType.Declared? then Some(contentType.name) else None;
      Normal(platform.decode(bytes, ResolveCharset(declared, provisional)).GetOr(provisional))
  }

  /** What parseStream does with a stream and a content type. */
  function ParseOutcome(stream: InputStream, contentType: ContentTypeCharset, platform: Platform): (r: Completion<Option<string>>)
    ensures r == Normal(None) <==> stream.fails
    ensures r.Thrown? <==> !stream.fails && contentType.Rejected?
  {
    if stream.fails then Normal(None)
    else
      match DecodeBody(Flatten(stream.pending), contentType, platform)
      case Normal(page) => Normal(Some(page))
      case Thrown => Thrown
  }

  /** parseStream, lines 249-282. */
  method ParseStream(stream: InputStream, contentType: ContentTypeCharset, platform: Platform)
    returns (r: Completion<Option<string>>)
    ensures r == ParseOutcome(stream, contentType, platform)
  {
    ghost var chunks;
    var body;
    body, chunks := ReadBody(stream);
    if body.None? {
      // the IOException is caught and logged; pageContent is still null
      return Normal(None);
    }
    var bytes := body.value;
    var charset := DefaultCharset;
    if contentType.Rejected? {
      return Thrown;
    }
    var charsets := if contentType.Declared? then Some(contentType.name) else None;
    var pageContent := platform.defaultDecode(bytes);
    if charsets.Some? {
      charset := charsets.value;
    } else {
      var found := MetaCharset(pageContent);
      if found.Some? {
        charset := found.value;
      }
    }
    var decoded := platform.decode(bytes, charset);
    if decoded.Some? {
      pageContent := decoded.value;
    }
    // otherwise the UnsupportedEncodingException is caught and logged, and
    // pageContent keeps the provisional decoding
    r := Normal(Some(pageContent));
  }

  // ---------------------------------------------------------------------------
  // getContent

  /**
   * What getContent returns for a URL, given what the network does. A page
   * comes back exactly when the URL passes the guard, the server answers 200
   * with an entity whose content can be opened and read to the end, and whose
   * content type can be parsed. GetContent below is the same chain of checks
   * written as the source writes it, calling the ParseStream method; this
   * function is what it is proved against and what the lemmas speak of.
   */
  function Content(url: Option<string>, exchange: Exchange, platform: Platform): (content: Option<string>)
    ensures content.Some? <==>
      && AcceptsUrl(url)
      && exchange.Response? && exchange.status == 200
      && exchange.entity.Some? && exchange.entity.value.content.Some?
      && !exchange.entity.value.content.value.fails
      && !exchange.entity.value.contentType.Rejected?
  {
    if !AcceptsUrl(url) then None
    else
      match SendRequest(exchange)
      case None => None
      case Some(entity) =>
        match entity.content
        case None => None
        case Some(stream) =>
          match ParseOutcome(stream, entity.contentType, platform)
          case Normal(page) => page
          case Thrown => None
  }

  /** getContent, lines 219-243; the exception handlers turn every failure into null. */
  method GetContent(url: Option<string>, exchange: Exchange, platform: Platform) returns (content: Option<string>)
    ensures content == Content(url, exchange, platform)
  {
    if url.None? || !StartsWithHttp(url.value) {
      return None;
    }
    var httpEntity := SendRequest(exchange);
    if httpEntity.None? {
      return None;
    }
    if httpEntity.value.content.None? {
      return None;
    }
    var r := ParseStream(httpEntity.value.content.value, httpEntity.value.contentType, platform);
    content := if r.Normal? then r.value else None;
  }

  // ---------------------------------------------------------------------------
  // Properties

  /** The guard is the literal prefix "http" and nothing more: any continuation passes. */
  lemma GuardIsHttpPrefix(url: string, rest: string)
    ensures StartsWithHttp("http" + rest)
    ensures StartsWithHttp(url) <==> |url| >= 4 && url == "http" + url[4..]
  {
  }

  lemma GuardExamples()
    ensures AcceptsUrl(Some("httpfoo")) && AcceptsUrl(Some("https://example.com"))
    ensures !AcceptsUrl(None) && !AcceptsUrl(Some("")) && !AcceptsUrl(Some("ftp://example.com"))
  {
    GuardIsHttpPrefix("", "foo");
    GuardIsHttpPrefix("", "s://example.com");
    assert "ftp://example.com"[..4][0] == 'f';
  }

  /**
   * A null or non-http URL gives null, and what the network would have done
   * makes no difference: no request is sent.
   */
  lemma RejectedUrlSendsNoRequest(url: Option<string>, exchange: Exchange, other: Exchange, platform: Platform)
    requires !AcceptsUrl(url)
    ensures Content(url, exchange, platform) == None
    ensures Content(url, exchange, platform) == Content(url, other, platform)
  {
  }

  /** An IOException from execute, or any status but 200, gives null. */
  lemma FailedRequestGivesNull(url: Option<string>, exchange: Exchange, platform: Platform)
    requires exchange.ExecuteFailed? || exchange.status != 200
    ensures Content(url, exchange, platform) == None
  {
  }

  /** getContent returns null whenever sendRequest does. */
  lemma NullEntityGivesNull(url: Option<string>, exchange: Exchange, platform: Platform)
    requires SendRequest(exchange).None?
    ensures Content(url, exchange, platform) == None
  {
  }

  /**
   * With a charset in the content type, that charset decodes the page: the
   * result does not depend on the provisional text, so no meta tag in it
   * matters.
   */
  lemma HeaderCharsetWins(bytes: seq<byte>, name: string, platform: Platform, other: Platform)
    requires platform.decode(bytes, name) == other.decode(bytes, name)
    requires platform.decode(bytes, name).Some?
    ensures DecodeBody(bytes, Declared(name), platform) == Normal(platform.decode(bytes, name).value)
    ensures DecodeBody(bytes, Declared(name), platform) == DecodeBody(bytes, Declared(name), other)
  {
  }

  /** At getContent's level: a page served with a supported header charset is those bytes decoded with it. */
  lemma HeaderCharsetDecidesPage(url: string, stream: InputStream, name: string, platform: Platform)
    requires StartsWithHttp(url) && !stream.fails
    requires platform.decode(Flatten(stream.pending), name).Some?
    ensures Content(Some(url), Response(200, Some(Entity(Some(stream), Declared(name)))), platform) ==
      Some(platform.decode(Flatten(stream.pending), name).value)
  {
  }

  /** Without a header charset, the name a meta tag gives decodes the page. */
  lemma MetaTagCharsetUsed(bytes: seq<byte>, platform: Platform, name: string)
    requires MetaCharset(platform.defaultDecode(bytes)) == Some(name)
    ensures DecodeBody(bytes, Undeclared, platform) ==
      Normal(platform.decode(bytes, name).GetOr(platform.defaultDecode(bytes)))
  {
  }

  /** Without a header charset or a meta tag, UTF-8 decodes the page. */
  lemma Utf8WhenNothingDeclared(bytes: seq<byte>, platform: Platform)
    requires MetaCharset(platform.defaultDecode(bytes)).None?
    ensures DecodeBody(bytes, Undeclared, platform) ==
      Normal(platform.decode(bytes, DefaultCharset).GetOr(platform.defaultDecode(bytes)))
  {
  }

  /** An unsupported charset name leaves the provisional decoding, never null. */
  lemma UnsupportedCharsetKeepsProvisional(bytes: seq<byte>, contentType: ContentTypeCharset, platform: Platform)
    requires !contentType.Rejected?
    requires var declared := if contentType.Declared? then Some(contentType.name) else None;
      platform.decode(bytes, ResolveCharset(declared, platform.defaultDecode(bytes))).None?
    ensures DecodeBody(bytes, contentType, platform) == Normal(platform.defaultDecode(bytes))
  {
  }

  /** A page whose head declares GB2312 in capitals is decoded as "gb2312". */
  lemma MetaTagExample(bytes: seq<byte>, platform: Platform)
    requires platform.defaultDecode(bytes) == "<HEAD><META CHARSET=\"GB2312\">"
    ensures DecodeBody(bytes, Undeclared, platform) ==
      Normal(platform.decode(bytes, "gb2312").GetOr(platform.defaultDecode(bytes)))
  {
    UpperCaseMetaTag();
  }
}

=== FILE: Wrappers.dfy ===
/** Absence values: the model's stand-in for Java's null. */
module Wrappers {

  datatype Option<+T> = None | Some(value: T) {

    /** The value, or a default when there is none. */
    function GetOr(default: T): T {
      match this
      case Some(v) => v
      case None => default
    }
  }
}
